=== FILE: README.md ===
# SUBJKT settings and mint preview rules

A Dafny model of the pure rules inside two screens of a marketplace front end
for tokenised digital artworks:

- **SUBJKT settings page** (`src/pages/config/Subjkt.jsx`). A SUBJKT is the
  user's registered name. The page loads the profile of the current address. It
  cleans the username field when the field loses focus. On "Save Profile" it
  checks that no other address holds the chosen name. It then uploads the
  profile metadata to IPFS and calls the SUBJKT registry.
- **Mint preview** (`src/components/preview/index.jsx`). It shows a warning
  for zipped HTML bundles, labels for NSFW and photosensitive artworks, and the
  tag list parsed from the comma-separated tag string.

Every network call (GraphQL queries, IPFS uploads, the registry contract) is
replaced by its result, which is an input of the model. The save is modelled as
a trace of `Step`s: the calls made and the progress messages shown, in order.

Modules:

- `Sequences` (`sequences.dfy`): filtering a sequence by a predicate. This is
  what a global `replace` with a one-class regular expression and an empty
  replacement does. It proves the subsequence, fixpoint, idempotence, counting
  and uniqueness lemmas once; the username and tag rules reuse them.
- `Username` (`username.dfy`): the blur sanitiser of the username field.
- `Profile` (`profile.dfy`): the effective address, the user lookup and the
  prefill of the form.
- `Registration` (`registration.dfy`): the name-availability check and the
  save flow as a trace.
- `Tags` (`tags.dfy`): whitespace removal, `split(',')`, `join(',')` and the
  tag parser.
- `Preview` (`preview.dfy`): `isHTML`, the attributes block and what the
  preview shows.
- `Options` (`options.dfy`): the `Option` datatype, standing for `undefined`/`null`.

Modelling choices:

- A JavaScript falsy string (`undefined`, `null`, `''`) is the empty string
  for addresses, names and metadata fields.
- The values of `MIMETYPE.ZIP`, `ZIP1` and `ZIP2` are defined outside these
  files. They are a parameter (`ZipMimeTypes`) of the preview.
- JavaScript's `\s` is written out as the white space and line terminator
  characters of the ECMAScript standard (`Tags.IsWs`). No proof depends on
  which characters it holds, except that `,` is not one of them.
- The name check compares holders with the page's `address` state. That state
  is the proxy address when one is set, else the wallet address
  (`Registration.NameCheckAgainstPageAddress`). So with a proxy set, a name
  held by the user's own wallet counts as taken.
- `subjkt_config` builds the metadata from the `identicon` value captured when
  the save starts. The `setIdenticon` after the save's own picture upload does
  not change that value during the save. The model keeps this as written. In
  the usual flow `onFileChange` (Subjkt.jsx:196-207) has already uploaded the
  same file and set `identicon` to its `ipfs://` address, so the metadata does
  carry that picture. What the model proves is narrower: the calls a save
  makes do not depend on the CID its own picture upload returns
  (`Registration.PictureCidNotInMetadata`).
- The tag parser tests for the empty string before it removes whitespace. A
  string of only whitespace therefore yields one empty tag
  (`Tags.WhitespaceOnlyGivesOneEmptyTag`). Empty pieces between commas are
  kept.

## Model

| member | source | states |
|---|---|---|
| Username.Sanitize | src/pages/config/Subjkt.jsx:268-272 | the blurred value matches the regular expression `^[a-z0-9-._]*$` and is no longer than the typed value |
| Username.SanitizeOnBlur | src/pages/config/Subjkt.jsx:267-269 | scanning the value left to right and appending each allowed character gives exactly the sanitised name |
| Username.SanitizeCount | src/pages/config/Subjkt.jsx:268 | every occurrence of an allowed character survives and no occurrence of another character does |
| Username.SanitizeFixesExactlyValid | src/pages/config/Subjkt.jsx:268-272 | blurring leaves a name unchanged if and only if it already matches `^[a-z0-9-._]*$` |
| Username.SanitizeIdempotent | src/pages/config/Subjkt.jsx:268 | blurring twice gives the same value as blurring once |
| Username.SanitizeIsSubsequence | src/pages/config/Subjkt.jsx:268 | the result is a subsequence of the typed value: characters are removed, never reordered |
| Username.SanitizeKeepsEveryAllowed | src/pages/config/Subjkt.jsx:268 | the result is the only pattern-matching subsequence of the input of its length, so it is exactly the allowed characters in order |
| Username.SanitizeAppend | src/pages/config/Subjkt.jsx:268 | the global replace acts on each part of a concatenation independently |
| Username.UppercaseDropped | src/pages/config/Subjkt.jsx:268 | an upper-case letter is removed wherever it stands, not lower-cased |
| Profile.CurrentAddress | src/pages/config/Subjkt.jsx:61 | the page acts for the proxy address when one is set, else for the wallet; it has no address only when neither is set |
| Profile.LookupUser | src/pages/config/Subjkt.jsx:44 | a found user is the first row returned; a name or metadata comes only from a returned row |
| Profile.LookupBelongsToAddress | src/pages/config/Subjkt.jsx:16-44 | when the rows match the queried address, as the query filters, the looked-up user has that address, including the `{user_address: address}` default |
| Profile.MetadataField | src/pages/config/Subjkt.jsx:73-76 | a description or identicon is read only from present metadata that holds that field |
| Profile.MetadataFieldIsPlainLookup | src/pages/config/Subjkt.jsx:73-76 | the emptiness test on the metadata data never changes the value read: a present field makes the data non-empty |
| Profile.LoadPage | src/pages/config/Subjkt.jsx:56-83 | with no address nothing is fetched and the form stays empty; any prefilled name, description or identicon comes from the first returned user |
| Profile.LoadPagePrefills | src/pages/config/Subjkt.jsx:68-77 | when the user is found, the form holds its name and the description and identicon of its metadata |
| Registration.NameExists | src/pages/config/Subjkt.jsx:85-119 | an empty name sends no query and is not taken; a name is taken if and only if the query succeeds and its first holder is another address, and only then is a holder shown, namely that first holder |
| Registration.TakenIffHeldByAnother | src/pages/config/Subjkt.jsx:95-118 | with at most one holder per name, a queried name is taken exactly when some address other than the current one holds it |
| Registration.NameCheckAgainstPageAddress | src/pages/config/Subjkt.jsx:104 | the check compares with the page's effective address: with a proxy set, the proxy's own name is free and the wallet's name is taken |
| Registration.NameCheckSteps | src/pages/config/Subjkt.jsx:86-118 | the name check uploads nothing and calls no registry; a name query appears only when the check queries, and then only as its first step, for the chosen name |
| Registration.MessageText | src/pages/config/Subjkt.jsx:108-110 | the taken-name message ends with the holder's address, after a prefix of fixed length |
| Registration.AlreadyRegisteredNamesHolder | src/pages/config/Subjkt.jsx:106-110 | two holders give the same taken-name message if and only if they are the same address, so the dialog identifies the holder |
| Registration.UploadSteps | src/pages/config/Subjkt.jsx:127-161 | the upload phase queries nothing and calls no registry; it uploads the chosen picture if and only if a file is chosen, before the metadata; it uploads the metadata exactly once, as its last step, carrying the description and identicon held when the save began |
| Registration.Publish | src/pages/config/Subjkt.jsx:127-191 | after the name check passes, the metadata is uploaded exactly once, carrying the call-time description and identicon, and no name is queried; the chosen picture, and only it, is uploaded before the metadata, and only when a file is chosen; a null metadata CID ends the save without a registry call; otherwise the only registry call is second to last, with the name and the CID; afterwards the page holds `ipfs://` and the picture CID as identicon when a picture was uploaded, else the old identicon |
| Registration.Completion | src/pages/config/Subjkt.jsx:163-191 | a null CID shows the error message and nothing else; otherwise the registry is called with the name and that CID, and the "SUBJKT Minted" message is the last step; nothing here uploads |
| Registration.Save | src/pages/config/Subjkt.jsx:121-192 | a taken name stops the save before any upload or registry call; for a free name the metadata is always uploaded, and the chosen picture is uploaded before it if and only if a file is chosen; a null metadata CID stops the save before the registry; otherwise the registry call is second to last, with the name and the CID |
| Registration.SaveUploadsMetadataOnce | src/pages/config/Subjkt.jsx:147-161 | a save that gets past the name check uploads the metadata exactly once, with the description and identicon held when it began |
| Registration.SaveQueriesOnlyFirst | src/pages/config/Subjkt.jsx:85-125 | the only name query of a save is its first step, for the chosen name; an empty name is never queried |
| Registration.SaveIdenticon | src/pages/config/Subjkt.jsx:133-146 | after a save the page's identicon is `ipfs://` and the picture CID when the save uploaded a picture, and the old identicon otherwise |
| Registration.RegistryCalledOnce | src/pages/config/Subjkt.jsx:163-182 | the registry calls of a save are exactly one call with the name and metadata CID when it mints, and none otherwise |
| Registration.RegistryFollowsMetadataUpload | src/pages/config/Subjkt.jsx:148-182 | every registry call comes after the metadata upload |
| Registration.NameQueriedFirst | src/pages/config/Subjkt.jsx:122-125 | for a non-empty name, the name query is the first thing the save does |
| Registration.PictureCidNotInMetadata | src/pages/config/Subjkt.jsx:134-161 | the calls of a save do not depend on the CID the picture upload returns |
| Tags.StripWs | src/components/preview/index.jsx:33 | removing whitespace leaves no whitespace; every other character keeps its number of occurrences, and the result is a subsequence of the input, so the rest survives in order |
| Tags.Split | src/components/preview/index.jsx:33 | `split(',')` gives one more piece than there are commas; no piece holds a comma and every character comes from the input |
| Tags.ParseTags | src/components/preview/index.jsx:30-34 | an absent or empty tag string gives no tags; otherwise there is one tag per comma plus one; no tag holds whitespace or a comma |
| Tags.JoinSplit | src/components/preview/index.jsx:33 | joining the pieces of a split with `,` gives back the split string |
| Tags.SplitJoin | src/components/preview/index.jsx:33 | splitting the `,`-join of comma-free pieces gives back the pieces |
| Tags.TagsRoundTrip | src/components/preview/index.jsx:30-34 | joining the parsed tags with `,` gives the tag string with all whitespace removed |
| Tags.TagsFromJoin | src/components/preview/index.jsx:30-34 | parsing a non-empty `,`-join of clean tags gives back those tags |
| Tags.WhitespaceOnlyGivesOneEmptyTag | src/components/preview/index.jsx:30-34 | a non-empty tag string of only whitespace parses to a single empty tag |
| Preview.AttributesBlock | src/components/preview/index.jsx:62-79 | the attributes block is shown if and only if the artwork is NSFW or photosensitive; each label is shown if and only if its flag is set, so a shown block is never empty |
| Preview.Render | src/components/preview/index.jsx:7-37 | the HTML warning is shown if and only if the MIME type is one of the three ZIP types (`IsHTML`); the tags shown are the parsed tag list, so they join back to the whitespace-free tag string |

## Left out

- GraphQL queries, IPFS uploads and the registry contract call are not modelled as code. What they return is an input, and each call is a `Step` of the save trace.
- React state, hooks, the feedback dialog's `visible`/`progress`/`confirm` flags, confirm callbacks, console logging and JSX layout are presentational. Only the dialog messages of the save are kept, as `Notice` steps.
- `context.setSubjktInfo` (Subjkt.jsx:65) is not modelled. It hands the looked-up user to the shared context and has no rule of its own.
- `onFileChange` (Subjkt.jsx:196-208) is not modelled. It is one IPFS upload of the chosen file followed by a state update, with no decision in it.
- Registration.NameExists: assumes the reply carries a holder list. A reply with no errors and no `data` makes the source throw on `data.teia_users` (Subjkt.jsx:100); the model does not include that crash.
- Registration.Save: does not model exceptions. A picture upload, metadata upload or registry call that throws ends `subjkt_config` early in the source. The registry's return value is ignored, as in the source.
- Registration.Save: a selected-file value that is an empty file list is not modelled. The source would throw on `file.arrayBuffer()` (Subjkt.jsx:141). A chosen file is `Some(path)`.
- Profile.LoadPage: models only a profile query that returns. If the query throws, `init().catch(console.error)` skips `setLoading(false)` (Subjkt.jsx:80-82), so the page never renders (Subjkt.jsx:253); the model has no such state.
- Profile.MetadataField: metadata fields are strings. Non-string values of `description` or `identicon` are not modelled.
- Characters are Unicode scalar values, while JavaScript's `replace` works on UTF-16 code units. Both halves of a surrogate pair are outside the allowed username alphabet, so the result is the same.
- `src/components/item-info/ItemInfoCompact.jsx` is not modelled. It is presentational. Its only computation is floating-point price formatting.
- `src/types.d.ts` declares types only; it has no behaviour to model.
- The media renderer (`RenderMediaType`), the HTML warning component and the tag chips are not part of this model.

=== FILE: options.dfy ===
/** The optional value used wherever the source reads a property that may be
    `undefined` or `null`. */
module Options {

  datatype Option<T> = None | Some(value: T)

  /** What `o` carries, or `fallback` when it carries nothing; the `x || ''`
      idiom of the source when `fallback` is the empty string. */
  function ValueOr<T>(o: Option<T>, fallback: T): (r: T)
    ensures o.Some? ==> r == o.value
    ensures o.None? ==> r == fallback
  {
    if o.Some? then o.value else fallback
  }
}

=== FILE: preview.dfy ===
/** The mint preview: which warnings and labels it shows for the declared MIME
    type, the creator's content flags and the tag string. The media renderer it
    embeds is not part of this model. */
module Preview {
  import opened Options
  import Tags

  /** The three MIME types the application treats as zipped HTML bundles. Their
      string values are defined outside this model, so they are a parameter. */
  datatype ZipMimeTypes = ZipMimeTypes(zip: string, zip1: string, zip2: string)

  /** The declared type is one of the zipped HTML bundle types. */
  predicate IsHTML(zips: ZipMimeTypes, mimeType: string)
  {
    mimeType == zips.zip || mimeType == zips.zip1 || mimeType == zips.zip2
  }

  /** The content labels shown in the attributes block. */
  datatype Attributes = Attributes(nsfw: bool, seizureWarning: bool)

  /** The attributes block: present only when the artwork is flagged, and then
      holding one label per flag that is set. */
  function AttributesBlock(nsfw: bool, photosensitiveSeizureWarning: bool): (r: Option<Attributes>)
    ensures r.Some? <==> nsfw || photosensitiveSeizureWarning
    ensures r.Some? ==> (r.value.nsfw <==> nsfw) && (r.value.seizureWarning <==> photosensitiveSeizureWarning)
    ensures r.Some? ==> r.value.nsfw || r.value.seizureWarning
  {
    if photosensitiveSeizureWarning || nsfw then Some(Attributes(nsfw, photosensitiveSeizureWarning))
    else None
  }

  /** The properties of the preview that this model covers. */
  datatype Props = Props(
    mimeType: string,
    tags: Option<string>,
    nsfw: bool,
    photosensitiveSeizureWarning: bool)

  /** What the preview shows, apart from plain text fields and the media itself. */
  datatype View = View(htmlWarning: bool, attributes: Option<Attributes>, tags: seq<string>)

  function Render(zips: ZipMimeTypes, p: Props): (v: View)
    ensures v.htmlWarning <==> p.mimeType in {zips.zip, zips.zip1, zips.zip2}
    ensures v.attributes.Some? <==> p.nsfw || p.photosensitiveSeizureWarning
    ensures v.attributes.Some? ==> v.attributes.value == Attributes(p.nsfw, p.photosensitiveSeizureWarning)
    ensures Tags.Join(v.tags) == Tags.StripWs(ValueOr(p.tags, ""))
    ensures v.tags == Tags.ParseTags(p.tags)
  {
    Tags.TagsRoundTrip(p.tags);
    View(IsHTML(zips, p.mimeType), AttributesBlock(p.nsfw, p.photosensitiveSeizureWarning), Tags.ParseTags(p.tags))
  }
}

=== FILE: profile.dfy ===
/** The initial load of the SUBJKT settings page: which address it works for,
    which user record it reads for that address, and which fields of that record
    prefill the form. */
module Profile {
  import opened Options

  /** A wallet address. The empty string stands for an address that is not set
      (`undefined`, `null` or `''`, all falsy in the source). */
  type Address = string

  /** The `data` object of a profile's metadata, restricted to its string fields;
      an absent `data` is the empty map, as both are empty for the source. */
  datatype Metadata = Metadata(data: map<string, string>)

  /** A row of the users table as the address query returns it; `name` is "" when unset. */
  datatype User = User(address: Address, name: string, metadata: Option<Metadata>)

  /** The address the page acts for: the proxy contract when one is set, else the wallet. */
  function CurrentAddress(wallet: Address, proxy: Address): (r: Address)
    ensures r == "" <==> wallet == "" && proxy == ""
    ensures proxy != "" ==> r == proxy
    ensures r == proxy || r == wallet
  {
    if proxy != "" then proxy else wallet
  }

  /** The first user the address query returned, or a record holding only the
      queried address when the query gave no data or no user. */
  function LookupUser(address: Address, users: Option<seq<User>>): (r: User)
    ensures r.name != "" || r.metadata.Some? ==> users.Some? && |users.value| > 0
    ensures users.Some? && |users.value| > 0 ==> r == users.value[0]
  {
    match users
    case Some(us) => if |us| > 0 then us[0] else User(address, "", None)
    case None => User(address, "", None)
  }

  /** When every returned user has the queried address, as the query's filter
      promises, the looked-up user belongs to that address, found or not. */
  lemma LookupBelongsToAddress(address: Address, users: Option<seq<User>>)
    requires users.Some? ==> forall i :: 0 <= i < |users.value| ==> users.value[i].address == address
    ensures LookupUser(address, users).address == address
  {
  }

  /** A metadata field as the page reads it: only when the metadata is present and
      its data is not empty, and only when the field is set; "" otherwise. */
  function MetadataField(metadata: Option<Metadata>, key: string): (r: string)
    ensures r != "" ==> metadata.Some? && key in metadata.value.data && metadata.value.data[key] == r
  {
    if metadata.Some? && |metadata.value.data| > 0 then
      if key in metadata.value.data && metadata.value.data[key] != "" then metadata.value.data[key] else ""
    else ""
  }

  /** The emptiness test on the metadata's data never changes the field read:
      a field that is set makes the data non-empty. */
  lemma MetadataFieldIsPlainLookup(metadata: Option<Metadata>, key: string)
    ensures MetadataField(metadata, key)
         == (if metadata.Some? && key in metadata.value.data then metadata.value.data[key] else "")
  {
  }

  /** The form fields the page starts with. */
  datatype PageState = PageState(address: Address, subjkt: string, description: string, identicon: string)

  /** The page state after the initial load. `users` is what the address query
      returns for the current address; it is read only when that address is set. */
  function LoadPage(wallet: Address, proxy: Address, users: Option<seq<User>>): (s: PageState)
    ensures s.address == CurrentAddress(wallet, proxy)
    ensures s.address == "" ==> s == PageState("", "", "", "")
    ensures s.subjkt != "" ==> users.Some? && |users.value| > 0 && s.subjkt == users.value[0].name
    ensures s.description != "" ==>
      && users.Some? && |users.value| > 0
      && users.value[0].metadata.Some?
      && "description" in users.value[0].metadata.value.data
      && users.value[0].metadata.value.data["description"] == s.description
    ensures s.identicon != "" ==>
      && users.Some? && |users.value| > 0
      && users.value[0].metadata.Some?
      && "identicon" in users.value[0].metadata.value.data
      && users.value[0].metadata.value.data["identicon"] == s.identicon
  {
    var address := CurrentAddress(wallet, proxy);
    if address == "" then PageState("", "", "", "")
    else
      var user := LookupUser(address, users);
      PageState(
        address,
        user.name,
        MetadataField(user.metadata, "description"),
        MetadataField(user.metadata, "identicon"))
  }

  /** When an address is set and the query finds its user, the form is prefilled
      with that user's name and with the description and identicon of its metadata. */
  lemma LoadPagePrefills(wallet: Address, proxy: Address, users: Option<seq<User>>)
    requires CurrentAddress(wallet, proxy) != ""
    requires users.Some? && |users.value| > 0
    ensures var u := users.value[0]; var s := LoadPage(wallet, proxy, users);
      && s.subjkt == u.name
      && s.description == (if u.metadata.Some? && "description" in u.metadata.value.data then u.metadata.value.data["description"] else "")
      && s.identicon == (if u.metadata.Some? && "identicon" in u.metadata.value.data then u.metadata.value.data["identicon"] else "")
  {
  }
}

=== FILE: registration.dfy ===
/** Saving the SUBJKT profile: the check that the chosen name is not held by
    another address, then the uploads and the registry call. Every network call
    is a step of a trace, and what each call returns is an input. */
module Registration {
  import opened Options
  import opened Profile
  import Sequences

  /** What the name query returns: whether it reported errors, and the addresses
      of the users holding the name, in the order the endpoint lists them. */
  datatype NameReply = NameReply(hasErrors: bool, holders: seq<Address>)

  /** The outcome of the name check: whether the query was sent, whether the
      name counts as taken, and the holder named in the dialog shown to the user. */
  datatype NameCheck = NameCheck(queried: bool, taken: bool, shownHolder: Option<Address>)

  /** The name check for `name` on behalf of `current`. `reply` is what the query
      would return; it is not consulted when the name is empty. */
  function NameExists(name: string, current: Address, reply: NameReply): (r: NameCheck)
    ensures r.queried <==> name != ""
    ensures r.taken ==> r.queried && !reply.hasErrors && |reply.holders| > 0 && reply.holders[0] != current
    ensures r.queried && !reply.hasErrors && |reply.holders| > 0 && reply.holders[0] != current ==> r.taken
    ensures r.shownHolder.Some? <==> r.taken
    ensures r.taken ==> r.shownHolder == Some(reply.holders[0])
  {
    if name == "" then NameCheck(false, false, None)
    else if reply.hasErrors then NameCheck(true, false, None)
    else if |reply.holders| == 0 then NameCheck(true, false, None)
    else if reply.holders[0] == current then NameCheck(true, false, None)
    else NameCheck(true, true, Some(reply.holders[0]))
  }

  /** With names unique in the registry (at most one holder), a non-empty name
      whose query succeeds is taken exactly when some other address holds it. */
  lemma TakenIffHeldByAnother(name: string, current: Address, reply: NameReply)
    requires name != "" && !reply.hasErrors
    requires |reply.holders| <= 1
    ensures NameExists(name, current, reply).taken <==> exists a :: a in reply.holders && a != current
  {
    if NameExists(name, current, reply).taken {
      assert reply.holders[0] in reply.holders;
    }
  }

  /** The check compares holders with the address the page acts for: with a proxy
      set, a name held by the proxy is the user's own, while a name held by the
      wallet behind that proxy counts as taken. */
  lemma NameCheckAgainstPageAddress(wallet: Address, proxy: Address, users: Option<seq<User>>, name: string)
    requires name != "" && proxy != "" && wallet != proxy
    ensures !NameExists(name, LoadPage(wallet, proxy, users).address, NameReply(false, [proxy])).taken
    ensures NameExists(name, LoadPage(wallet, proxy, users).address, NameReply(false, [wallet])).taken
  {
  }

  /** A network call made while saving, or a message shown in the progress dialog. */
  datatype Step =
    | QueryName(name: string)
    | Notice(message: Message)
    | UploadPicture(path: string)
    | UploadMetadata(description: string, identicon: string)
    | Register(name: string, metadataCid: string)

  predicate IsUpload(s: Step) {
    s.UploadPicture? || s.UploadMetadata?
  }

  predicate IsRegister(s: Step) {
    s.Register?
  }

  /** The registry calls of a trace, in the order they are made. */
  function Registrations(trace: seq<Step>): (r: seq<Step>)
    ensures forall k :: 0 <= k < |r| ==> IsRegister(r[k])
  {
    Sequences.Filter(IsRegister, trace)
  }

  /** Everything the save needs: the form and page state when the button is
      pressed, and what each network call returns. */
  datatype SaveInput = SaveInput(
    name: string,
    address: Address,
    description: string,
    identicon: string,
    selectedFile: Option<string>,
    nameReply: NameReply,
    pictureCid: string,
    metadataCid: Option<string>)

  datatype Outcome = NameTaken | MetadataUploadFailed | Minted

  /** The calls and messages of one save, how it ended, and the identicon the
      page holds afterwards. */
  datatype SaveRun = SaveRun(trace: seq<Step>, outcome: Outcome, identicon: string)

  /** The messages the save shows in the feedback dialog. */
  datatype Message =
    | AlreadyRegistered(holder: Address)
    | UploadingSubjkt
    | UploadingIdenticon
    | UploadingMetadata
    | MetadataUploadError
    | MintingSubjkt
    | SubjktMinted

  const AlreadyRegisteredPrefix := "The provided name is already registered by "

  /** The text the dialog shows for `m`. The taken-name message ends with the
      holder's address. */
  function MessageText(m: Message): (r: string)
    ensures m.AlreadyRegistered? ==>
      |r| == |AlreadyRegisteredPrefix| + |m.holder| && r[|AlreadyRegisteredPrefix|..] == m.holder
  {
    match m
    case AlreadyRegistered(holder) => AlreadyRegisteredPrefix + holder
    case UploadingSubjkt => "uploading SUBJKT"
    case UploadingIdenticon => "uploading indenticon"
    case UploadingMetadata => "uploading metadatas"
    case MetadataUploadError => "Error uploading metadatas"
    case MintingSubjkt => "minting SUBJKT"
    case SubjktMinted => "SUBJKT Minted"
  }

  /** The taken-name dialog identifies the holder: two holders get the same
      text only when they are the same address. */
  lemma AlreadyRegisteredNamesHolder(a: Address, b: Address)
    ensures MessageText(AlreadyRegistered(a)) == MessageText(AlreadyRegistered(b)) <==> a == b
  {
  }

  /** No step of the trace calls the registry. */
  predicate NoRegistration(trace: seq<Step>) {
    forall k :: 0 <= k < |trace| ==> !IsRegister(trace[k])
  }

  /** No step of the trace uploads to IPFS. */
  predicate NoUpload(trace: seq<Step>) {
    forall k :: 0 <= k < |trace| ==> !IsUpload(trace[k])
  }

  /** No step of the trace queries a name. */
  predicate NoQuery(trace: seq<Step>) {
    forall k :: 0 <= k < |trace| ==> !trace[k].QueryName?
  }

  /** The trace uploads the metadata exactly once, carrying `description` and `identicon`. */
  predicate UploadsMetadataOnce(trace: seq<Step>, description: string, identicon: string) {
    exists j :: 0 <= j < |trace| && trace[j] == UploadMetadata(description, identicon)
      && forall k :: 0 <= k < |trace| && trace[k].UploadMetadata? ==> k == j
  }

  /** The picture is uploaded when a file is chosen and only then, it is the
      chosen file, and it goes up before any metadata upload. */
  predicate UploadsPicture(trace: seq<Step>, file: Option<string>) {
    && ((exists k :: 0 <= k < |trace| && trace[k].UploadPicture?) <==> file.Some?)
    && (forall k :: 0 <= k < |trace| && trace[k].UploadPicture? ==> file == Some(trace[k].path))
    && (forall k, j :: 0 <= k < |trace| && 0 <= j < |trace| && trace[k].UploadPicture? && trace[j].UploadMetadata? ==> k < j)
  }

  /** Every metadata upload of the trace carries `description` and `identicon`. */
  predicate MetadataCarries(trace: seq<Step>, description: string, identicon: string) {
    forall k :: 0 <= k < |trace| && trace[k].UploadMetadata? ==> trace[k] == UploadMetadata(description, identicon)
  }

  /** The steps of the name check: the query when one is sent, and the dialog
      naming the holder when the name is taken. */
  function NameCheckSteps(name: string, check: NameCheck): (r: seq<Step>)
    requires check.shownHolder.Some? <==> check.taken
    ensures NoUpload(r)
    ensures NoRegistration(r)
    ensures check.queried ==> |r| > 0 && r[0] == QueryName(name)
    ensures forall k :: 0 <= k < |r| && r[k].QueryName? ==> check.queried && k == 0
  {
    (if check.queried then [QueryName(name)] else [])
    + (if check.taken then [Notice(AlreadyRegistered(check.shownHolder.value))] else [])
  }

  /** The steps of a save past the name check up to the metadata upload, which
      comes last, happens once and carries the description and identicon held
      when the save began. */
  function UploadSteps(i: SaveInput): (r: seq<Step>)
    ensures |r| >= 2 && r[|r| - 1] == UploadMetadata(i.description, i.identicon)
    ensures forall k :: 0 <= k < |r| && r[k].UploadMetadata? ==> k == |r| - 1
    ensures UploadsMetadataOnce(r, i.description, i.identicon)
    ensures NoRegistration(r)
    ensures NoQuery(r)
    ensures MetadataCarries(r, i.description, i.identicon)
    ensures UploadsPicture(r, i.selectedFile)
  {
    var picture :=
      if i.selectedFile.Some? then [Notice(UploadingIdenticon), UploadPicture(i.selectedFile.value)] else [];
    var r := [Notice(UploadingSubjkt)] + picture + [Notice(UploadingMetadata), UploadMetadata(i.description, i.identicon)];
    assert i.selectedFile.Some? ==> r[2].UploadPicture?;
    r
  }

  /** Steps that upload no picture, added before or after a trace, keep its
      picture uploads and their order; added after, they upload no metadata ahead
      of them. */
  lemma {:induction false} UploadsPictureFrame(before: seq<Step>, trace: seq<Step>, after: seq<Step>, file: Option<string>)
    requires UploadsPicture(trace, file)
    requires NoUpload(before)
    requires forall k :: 0 <= k < |after| ==> !after[k].UploadPicture?
    ensures UploadsPicture(before + trace + after, file)
  {
    var t := before + trace + after;
    if file.Some? {
      var k :| 0 <= k < |trace| && trace[k].UploadPicture?;
      assert t[|before| + k] == trace[k];
    }
    forall k | 0 <= k < |t| && t[k].UploadPicture?
      ensures |before| <= k < |before| + |trace| && t[k] == trace[k - |before|]
    {
    }
    forall k, j | 0 <= k < |t| && 0 <= j < |t| && t[k].UploadPicture? && t[j].UploadMetadata?
      ensures k < j
    {
      if j < |before| + |trace| {
        assert trace[j - |before|].UploadMetadata?;
      }
    }
  }

  /** Steps that upload nothing, put before a trace, keep its single metadata
      upload single. */
  lemma {:induction false} MetadataOnceAfter(before: seq<Step>, trace: seq<Step>, description: string, identicon: string)
    requires UploadsMetadataOnce(trace, description, identicon)
    requires NoUpload(before)
    ensures UploadsMetadataOnce(before + trace, description, identicon)
  {
    var t := before + trace;
    var j :| 0 <= j < |trace| && trace[j] == UploadMetadata(description, identicon)
      && forall k :: 0 <= k < |trace| && trace[k].UploadMetadata? ==> k == j;
    assert t[|before| + j] == trace[j];
    forall k | 0 <= k < |t| && t[k].UploadMetadata?
      ensures k == |before| + j
    {
      if k >= |before| {
        assert t[k] == trace[k - |before|];
      }
    }
  }

  /** Steps that upload nothing, put after a trace, keep its single metadata
      upload single. */
  lemma {:induction false} MetadataOnceBefore(trace: seq<Step>, after: seq<Step>, description: string, identicon: string)
    requires UploadsMetadataOnce(trace, description, identicon)
    requires NoUpload(after)
    ensures UploadsMetadataOnce(trace + after, description, identicon)
  {
    var t := trace + after;
    var j :| 0 <= j < |trace| && trace[j] == UploadMetadata(description, identicon)
      && forall k :: 0 <= k < |trace| && trace[k].UploadMetadata? ==> k == j;
    assert t[j] == trace[j];
    forall k | 0 <= k < |t| && t[k].UploadMetadata?
      ensures k == j
    {
      if k < |trace| {
        assert t[k] == trace[k];
      }
    }
  }

  /** The part of a save after the name check has passed: the uploads, then the
      registry call when the metadata upload returned a CID. */
  function Publish(i: SaveInput): (r: SaveRun)
    ensures r.outcome != NameTaken
    ensures r.outcome == MetadataUploadFailed <==> i.metadataCid.None?
    ensures r.outcome == Minted ==> |r.trace| >= 2 && r.trace[|r.trace| - 2] == Register(i.name, i.metadataCid.value)
    ensures forall k :: 0 <= k < |r.trace| && IsRegister(r.trace[k]) ==> r.outcome == Minted && k == |r.trace| - 2
    ensures MetadataCarries(r.trace, i.description, i.identicon)
    ensures UploadsPicture(r.trace, i.selectedFile)
    ensures UploadsMetadataOnce(r.trace, i.description, i.identicon)
    ensures NoQuery(r.trace)
    ensures r.identicon == (if exists k :: 0 <= k < |r.trace| && r.trace[k].UploadPicture? then "ipfs://" + i.pictureCid else i.identicon)
  {
    var identicon := if i.selectedFile.Some? then "ipfs://" + i.pictureCid else i.identicon;
    var uploads := UploadSteps(i);
    var tail := Completion(i.name, i.metadataCid);
    UploadsThenCompletion(i);
    SaveRun(uploads + tail, if i.metadataCid.Some? then Minted else MetadataUploadFailed, identicon)
  }

  /** The completion steps, put after the uploads, upload nothing and query
      nothing, so the uploads keep their order and contents, and the only
      registry call stays second to last. */
  lemma UploadsThenCompletion(i: SaveInput)
    ensures var t := UploadSteps(i) + Completion(i.name, i.metadataCid);
      && (i.metadataCid.Some? ==> |t| >= 2 && t[|t| - 2] == Register(i.name, i.metadataCid.value))
      && (forall k :: 0 <= k < |t| && IsRegister(t[k]) ==> i.metadataCid.Some? && k == |t| - 2)
      && MetadataCarries(t, i.description, i.identicon)
      && UploadsPicture(t, i.selectedFile)
      && UploadsMetadataOnce(t, i.description, i.identicon)
      && NoQuery(t)
  {
    var uploads := UploadSteps(i);
    var tail := Completion(i.name, i.metadataCid);
    var t := uploads + tail;
    UploadsPictureFrame([], uploads, tail, i.selectedFile);
    MetadataOnceBefore(uploads, tail, i.description, i.identicon);
    assert [] + uploads + tail == t;
    forall k | 0 <= k < |t| && IsRegister(t[k])
      ensures i.metadataCid.Some? && k == |t| - 2
    {
      assert k >= |uploads| && t[k] == tail[k - |uploads|];
    }
    forall k | 0 <= k < |t|
      ensures !t[k].QueryName?
    {
      if k >= |uploads| {
        assert t[k] == tail[k - |uploads|];
      }
    }
  }

  /** The steps after the metadata upload: the error message when it returned no
      CID, else the registry call with that CID between two messages. */
  function Completion(name: string, metadataCid: Option<string>): (r: seq<Step>)
    ensures NoUpload(r)
    ensures NoQuery(r)
    ensures metadataCid.None? ==> r == [Notice(MetadataUploadError)]
    ensures metadataCid.Some? ==> |r| >= 2 && r[|r| - 2] == Register(name, metadataCid.value)
    ensures metadataCid.Some? ==> r[|r| - 1] == Notice(SubjktMinted)
    ensures forall k :: 0 <= k < |r| && IsRegister(r[k]) ==> metadataCid.Some? && k == |r| - 2
  {
    match metadataCid
    case None => [Notice(MetadataUploadError)]
    case Some(cid) => [Notice(MintingSubjkt), Register(name, cid), Notice(SubjktMinted)]
  }

  /** The save as the page performs it. The metadata carries the description and
      identicon the page held when the button was pressed; a picture uploaded
      during the save changes only the identicon the page holds afterwards
      (`SaveIdenticon`). */
  function Save(i: SaveInput): (r: SaveRun)
    ensures r.outcome == NameTaken <==> NameExists(i.name, i.address, i.nameReply).taken
    ensures r.outcome == MetadataUploadFailed <==> r.outcome != NameTaken && i.metadataCid.None?
    ensures r.outcome == NameTaken ==> NoUpload(r.trace) && NoRegistration(r.trace)
    ensures r.outcome == Minted ==> |r.trace| >= 2 && r.trace[|r.trace| - 2] == Register(i.name, i.metadataCid.value)
    ensures forall k :: 0 <= k < |r.trace| && IsRegister(r.trace[k]) ==> r.outcome == Minted && k == |r.trace| - 2
    ensures MetadataCarries(r.trace, i.description, i.identicon)
    ensures r.outcome != NameTaken ==> UploadsPicture(r.trace, i.selectedFile)
    ensures r.outcome != NameTaken ==>
      exists k :: 0 <= k < |r.trace| && r.trace[k] == UploadMetadata(i.description, i.identicon)
  {
    var check := NameExists(i.name, i.address, i.nameReply);
    var checking := NameCheckSteps(i.name, check);
    if check.taken then
      SaveRun(checking, NameTaken, i.identicon)
    else
      var rest := Publish(i);
      NameCheckThenPublish(checking, i);
      SaveRun(checking + rest.trace, rest.outcome, rest.identicon)
  }

  /** Steps that upload nothing and call no registry, put before the steps of
      `Publish`, leave its registry call second to last and keep what its
      uploads carry. */
  lemma NameCheckThenPublish(checking: seq<Step>, i: SaveInput)
    requires NoUpload(checking)
    requires NoRegistration(checking)
    ensures var rest := Publish(i); var t := checking + rest.trace;
      && (rest.outcome == Minted ==> |t| >= 2 && t[|t| - 2] == Register(i.name, i.metadataCid.value))
      && (forall k :: 0 <= k < |t| && IsRegister(t[k]) ==> rest.outcome == Minted && k == |t| - 2)
      && MetadataCarries(t, i.description, i.identicon)
      && UploadsPicture(t, i.selectedFile)
      && exists k :: 0 <= k < |t| && t[k] == UploadMetadata(i.description, i.identicon)
  {
    var rest := Publish(i);
    var t := checking + rest.trace;
    var j :| 0 <= j < |rest.trace| && rest.trace[j] == UploadMetadata(i.description, i.identicon);
    assert t[|checking| + j] == rest.trace[j];
    UploadsPictureFrame(checking, rest.trace, [], i.selectedFile);
    assert checking + rest.trace + [] == t;
    forall k | 0 <= k < |t| && IsRegister(t[k])
      ensures rest.outcome == Minted && k == |t| - 2
    {
      assert k >= |checking| && t[k] == rest.trace[k - |checking|];
    }
  }

  /** A save that gets past the name check uploads the metadata exactly once. */
  lemma SaveUploadsMetadataOnce(i: SaveInput)
    ensures Save(i).outcome != NameTaken ==> UploadsMetadataOnce(Save(i).trace, i.description, i.identicon)
  {
    var check := NameExists(i.name, i.address, i.nameReply);
    if !check.taken {
      MetadataOnceAfter(NameCheckSteps(i.name, check), Publish(i).trace, i.description, i.identicon);
    }
  }

  /** The only name query of a save is its first step, for the chosen name, and
      an empty name is never queried. */
  lemma SaveQueriesOnlyFirst(i: SaveInput)
    ensures forall k :: 0 <= k < |Save(i).trace| && Save(i).trace[k].QueryName? ==>
      i.name != "" && k == 0 && Save(i).trace[k] == QueryName(i.name)
  {
  }

  /** After a save the page holds the uploaded picture's address as its
      identicon when the save uploaded a picture, and the old identicon otherwise. */
  lemma SaveIdenticon(i: SaveInput)
    ensures var r := Save(i);
      r.identicon == (if exists k :: 0 <= k < |r.trace| && r.trace[k].UploadPicture? then "ipfs://" + i.pictureCid else i.identicon)
  {
  }

  /** The registry is called once when the save mints, with the chosen name and
      the metadata CID, and not at all otherwise. */
  lemma RegistryCalledOnce(i: SaveInput)
    ensures var r := Save(i);
      Registrations(r.trace) == (if r.outcome == Minted then [Register(i.name, i.metadataCid.value)] else [])
  {
    var r := Save(i);
    if r.outcome == Minted {
      Sequences.FilterSingle(IsRegister, r.trace, |r.trace| - 2);
    } else {
      Sequences.FilterNone(IsRegister, r.trace);
    }
  }

  /** Every registry call comes after the metadata upload, which carries the
      description and identicon the page held when the save began. */
  lemma RegistryFollowsMetadataUpload(i: SaveInput)
    ensures var r := Save(i);
      forall k :: 0 <= k < |r.trace| && IsRegister(r.trace[k]) ==>
        exists j :: 0 <= j < k && r.trace[j] == UploadMetadata(i.description, i.identicon)
  {
  }

  /** A non-empty name is checked before anything else happens. */
  lemma NameQueriedFirst(i: SaveInput)
    requires i.name != ""
    ensures |Save(i).trace| > 0 && Save(i).trace[0] == QueryName(i.name)
  {
  }

  /** The CID of a picture uploaded during the save never reaches the metadata or
      the registry: the calls made are the same whatever that upload returns. */
  lemma PictureCidNotInMetadata(i: SaveInput, cid: string)
    ensures Save(i).trace == Save(i.(pictureCid := cid)).trace
    ensures Save(i).outcome == Save(i.(pictureCid := cid)).outcome
  {
  }
}

=== FILE: sequences.dfy ===
/** Filtering a sequence by a predicate on its elements. On strings it is the
    effect of a global regular expression `replace` whose pattern is a single
    character class and whose replacement is the empty string. */
module Sequences {

  /** Every element of `s` satisfies `keep`. */
  predicate All<T(==,!new)>(keep: T -> bool, s: seq<T>) {
    forall i :: 0 <= i < |s| ==> keep(s[i])
  }

  /** The elements of `s` that satisfy `keep`, in their original order. */
  function Filter<T(==,!new)>(keep: T -> bool, s: seq<T>): (r: seq<T>)
    ensures |r| <= |s|
    ensures All(keep, r)
  {
    if |s| == 0 then []
    else
      (if keep(s[0]) then [s[0]] else []) + Filter(keep, s[1..])
  }

  /** The number of occurrences of `x` in `s`. */
  function Count<T(==)>(s: seq<T>, x: T): nat
  {
    if |s| == 0 then 0 else (if s[0] == x then 1 else 0) + Count(s[1..], x)
  }

  /** Filtering keeps every occurrence of a kept element and none of a dropped one. */
  lemma {:induction false} FilterCount<T(!new)>(keep: T -> bool, s: seq<T>, x: T)
    ensures Count(Filter(keep, s), x) == (if keep(x) then Count(s, x) else 0)
    decreases |s|
  {
    if |s| > 0 {
      FilterCount(keep, s[1..], x);
      var head := if keep(s[0]) then [s[0]] else [];
      var rest := Filter(keep, s[1..]);
      if keep(s[0]) {
        assert Filter(keep, s) == [s[0]] + rest;
        assert (head + rest)[1..] == rest;
      } else {
        assert Filter(keep, s) == rest;
      }
    }
  }

  /** `FilterCount` for every element at once. */
  lemma FilterCounts<T(!new)>(keep: T -> bool, s: seq<T>)
    ensures forall x :: Count(Filter(keep, s), x) == (if keep(x) then Count(s, x) else 0)
  {
    forall x {
      FilterCount(keep, s, x);
    }
  }

  /** `a` is obtained from `b` by deleting elements, without reordering. */
  predicate IsSubsequence<T(==,!new)>(a: seq<T>, b: seq<T>)
    decreases |b|
  {
    if |a| == 0 then true
    else if |b| == 0 then false
    else if a[0] == b[0] then IsSubsequence(a[1..], b[1..])
    else IsSubsequence(a, b[1..])
  }

  /** Filtering distributes over concatenation. */
  lemma {:induction false} FilterAppend<T(!new)>(keep: T -> bool, a: seq<T>, b: seq<T>)
    ensures Filter(keep, a + b) == Filter(keep, a) + Filter(keep, b)
    decreases |a|
  {
    if |a| == 0 {
      assert a + b == b;
    } else {
      var ab := a + b;
      var head := if keep(a[0]) then [a[0]] else [];
      assert ab[0] == a[0] && ab[1..] == a[1..] + b;
      FilterAppend(keep, a[1..], b);
      assert Filter(keep, ab) == head + Filter(keep, a[1..] + b);
      assert Filter(keep, a) == head + Filter(keep, a[1..]);
    }
  }

  /** Filtering a sequence extended by one element extends the filtered sequence by
      that element when it is kept, and by nothing otherwise. */
  lemma FilterSnoc<T(!new)>(keep: T -> bool, s: seq<T>, c: T)
    ensures Filter(keep, s + [c]) == Filter(keep, s) + (if keep(c) then [c] else [])
  {
    FilterAppend(keep, s, [c]);
    var one: seq<T> := [c];
    assert one[0] == c && one[1..] == [];
    assert Filter(keep, one[1..]) == [];
    assert Filter(keep, one) == (if keep(c) then [c] else []) + Filter(keep, one[1..]);
  }

  /** The filtered sequence is a subsequence of the original. */
  lemma {:induction false} FilterIsSubsequence<T(!new)>(keep: T -> bool, s: seq<T>)
    ensures IsSubsequence(Filter(keep, s), s)
    decreases |s|
  {
    if |s| > 0 {
      FilterIsSubsequence(keep, s[1..]);
      var r := Filter(keep, s);
      if keep(s[0]) {
        assert r[0] == s[0] && r[1..] == Filter(keep, s[1..]);
      } else {
        assert r == Filter(keep, s[1..]);
        if |r| > 0 {
          assert keep(r[0]);
        }
      }
    }
  }

  /** A sequence whose elements all satisfy `keep` is left unchanged, and only such sequences are. */
  lemma {:induction false} FilterFixpoint<T(!new)>(keep: T -> bool, s: seq<T>)
    ensures Filter(keep, s) == s <==> All(keep, s)
    decreases |s|
  {
    if |s| > 0 {
      FilterFixpoint(keep, s[1..]);
      if All(keep, s) {
        assert All(keep, s[1..]) by {
          forall i | 0 <= i < |s[1..]| ensures keep(s[1..][i]) {
            assert s[1..][i] == s[i + 1];
          }
        }
      }
    }
  }

  /** Filtering twice is filtering once. */
  lemma FilterIdempotent<T(!new)>(keep: T -> bool, s: seq<T>)
    ensures Filter(keep, Filter(keep, s)) == Filter(keep, s)
  {
    FilterFixpoint(keep, Filter(keep, s));
  }

  /** A subsequence made only of kept elements is no longer than the filtered sequence. */
  lemma {:induction false} KeptSubsequenceBound<T(!new)>(keep: T -> bool, t: seq<T>, s: seq<T>)
    requires IsSubsequence(t, s) && All(keep, t)
    ensures |t| <= |Filter(keep, s)|
    decreases |s|
  {
    if |t| > 0 {
      assert keep(t[0]);
      if t[0] == s[0] {
        KeptSubsequenceBound(keep, t[1..], s[1..]);
      } else {
        KeptSubsequenceBound(keep, t, s[1..]);
      }
    }
  }

  /** The filtered sequence is the only subsequence of `s` that consists of kept
      elements and is as long as the number of kept elements in `s`: it keeps
      exactly the kept elements, in order. */
  lemma {:induction false} FilterUnique<T(!new)>(keep: T -> bool, t: seq<T>, s: seq<T>)
    requires IsSubsequence(t, s) && All(keep, t)
    requires |t| == |Filter(keep, s)|
    ensures t == Filter(keep, s)
    decreases |s|
  {
    if |s| > 0 && |t| > 0 {
      if t[0] == s[0] {
        assert keep(s[0]);
        FilterUnique(keep, t[1..], s[1..]);
        assert t == [t[0]] + t[1..];
      } else {
        KeptSubsequenceBound(keep, t, s[1..]);
        FilterUnique(keep, t, s[1..]);
      }
    }
  }

  /** A sequence with no kept element filters to the empty sequence. */
  lemma {:induction false} FilterNone<T(!new)>(keep: T -> bool, s: seq<T>)
    requires forall k :: 0 <= k < |s| ==> !keep(s[k])
    ensures Filter(keep, s) == []
    decreases |s|
  {
    if |s| > 0 {
      assert !keep(s[0]);
      FilterNone(keep, s[1..]);
    }
  }

  /** A sequence whose only kept element stands at index `k` filters to that element alone. */
  lemma FilterSingle<T(!new)>(keep: T -> bool, s: seq<T>, k: nat)
    requires k < |s| && keep(s[k])
    requires forall j :: 0 <= j < |s| && keep(s[j]) ==> j == k
    ensures Filter(keep, s) == [s[k]]
  {
    assert s == s[..k] + [s[k]] + s[k + 1..];
    FilterNone(keep, s[..k]);
    FilterNone(keep, s[k + 1..]);
    FilterAppend(keep, s[..k] + [s[k]], s[k + 1..]);
    FilterSnoc(keep, s[..k], s[k]);
  }
}

=== FILE: tags.dfy ===
/** The tag list shown by the mint preview: the comma-separated `tags` string
    with every whitespace character removed, split on `,`. */
module Tags {
  import opened Options
  import Sequences

  /** A character of JavaScript's `\s` class: the white space and line terminator
      characters of the ECMAScript standard. */
  predicate IsWs(c: char) {
    || c == '\t' || c == '\n' || c == '\U{000B}' || c == '\U{000C}' || c == '\r'
    || c == ' ' || c == '\U{00A0}' || c == '\U{1680}'
    || ('\U{2000}' <= c <= '\U{200A}')
    || c == '\U{2028}' || c == '\U{2029}' || c == '\U{202F}' || c == '\U{205F}'
    || c == '\U{3000}' || c == '\U{FEFF}'
  }

  predicate NotWs(c: char) {
    !IsWs(c)
  }

  /** `s` holds no whitespace character. */
  predicate NoWs(s: string) {
    Sequences.All(NotWs, s)
  }

  /** The string with every whitespace character removed: every other
      character survives, as often as it occurs and in its order. */
  function StripWs(s: string): (r: string)
    ensures NoWs(r)
    ensures forall c :: Sequences.Count(r, c) == (if IsWs(c) then 0 else Sequences.Count(s, c))
    ensures Sequences.IsSubsequence(r, s)
  {
    Sequences.FilterCounts(NotWs, s);
    Sequences.FilterIsSubsequence(NotWs, s);
    Sequences.Filter(NotWs, s)
  }

  /** The pieces of `s` between commas, empty pieces included, as `split(',')` returns them. */
  function Split(s: string): (r: seq<string>)
    ensures |r| > 0
    ensures forall i :: 0 <= i < |r| ==> ',' !in r[i]
    decreases |s|
  {
    if |s| == 0 then [""]
    else
      var rest := Split(s[1..]);
      if s[0] == ',' then [""] + rest
      else [[s[0]] + rest[0]] + rest[1..]
  }

  /** The pieces separated by `,`, as `join(',')` builds them; no pieces give the empty string. */
  function Join(parts: seq<string>): string
  {
    if |parts| == 0 then "" else parts[0] + CommaEach(parts[1..])
  }

  /** Each piece preceded by a comma, concatenated. */
  function CommaEach(parts: seq<string>): string
  {
    if |parts| == 0 then "" else "," + parts[0] + CommaEach(parts[1..])
  }

  /** The tag list of the preview. An absent or empty `tags` gives no tags; any
      other string gives one tag per comma-separated piece of the string with
      its whitespace removed. */
  function ParseTags(tags: Option<string>): (r: seq<string>)
    ensures tags.None? || tags == Some("") ==> r == []
    ensures tags.Some? && tags.value != "" ==> |r| == Sequences.Count(tags.value, ',') + 1
    ensures forall i, k :: 0 <= i < |r| && 0 <= k < |r[i]| ==> r[i][k] != ',' && !IsWs(r[i][k])
  {
    match tags
    case None => []
    case Some(t) =>
      if t == "" then []
      else
        SplitKeepsCharacters(StripWs(t));
        SplitCount(StripWs(t));
        Split(StripWs(t))
  }

  /** A split gives one more piece than there are commas. */
  lemma {:induction false} SplitCount(s: string)
    ensures |Split(s)| == Sequences.Count(s, ',') + 1
    decreases |s|
  {
    if |s| > 0 {
      SplitCount(s[1..]);
    }
  }

  /** Every character of every piece of a split is a character of the split string. */
  lemma {:induction false} SplitKeepsCharacters(s: string)
    ensures forall i, k :: 0 <= i < |Split(s)| && 0 <= k < |Split(s)[i]| ==> Split(s)[i][k] in s
    decreases |s|
  {
    if |s| > 0 {
      SplitKeepsCharacters(s[1..]);
      var rest := Split(s[1..]);
      var r := Split(s);
      forall i, k | 0 <= i < |r| && 0 <= k < |r[i]| ensures r[i][k] in s {
        if s[0] == ',' {
          assert r[i] == rest[i - 1];
          assert rest[i - 1][k] in s[1..];
        } else if i == 0 {
          if k > 0 {
            assert r[0][k] == rest[0][k - 1];
            assert rest[0][k - 1] in s[1..];
          }
        } else {
          assert r[i] == rest[i];
          assert rest[i][k] in s[1..];
        }
      }
    }
  }

  /** Joining the pieces of a split with `,` gives back the string that was split. */
  lemma {:induction false} JoinSplit(s: string)
    ensures Join(Split(s)) == s
    decreases |s|
  {
    if |s| > 0 {
      var rest := Split(s[1..]);
      JoinSplit(s[1..]);
      if s[0] == ',' {
        JoinCons("", rest);
      } else {
        JoinExtendFirst(s[0], rest);
      }
      assert s == [s[0]] + s[1..];
    }
  }

  /** Joining a piece in front of further pieces puts a comma between them. */
  lemma JoinCons(x: string, parts: seq<string>)
    requires |parts| > 0
    ensures Join([x] + parts) == x + "," + Join(parts)
  {
    assert ([x] + parts)[1..] == parts;
    assert CommaEach(parts) == "," + parts[0] + CommaEach(parts[1..]);
  }

  /** Extending the first piece by a character extends the join by that character. */
  lemma JoinExtendFirst(c: char, parts: seq<string>)
    requires |parts| > 0
    ensures Join([[c] + parts[0]] + parts[1..]) == [c] + Join(parts)
  {
    var first := [c] + parts[0];
    var rest := CommaEach(parts[1..]);
    var extended := [first] + parts[1..];
    assert extended[0] == first && extended[1..] == parts[1..];
    assert Join(extended) == first + rest;
    assert Join(parts) == parts[0] + rest;
    assert first + rest == [c] + (parts[0] + rest);
  }

  /** Splitting a string whose leading part has no comma puts that part in front of the first piece. */
  lemma {:induction false} SplitCommaFreePrefix(a: string, b: string)
    requires ',' !in a
    ensures Split(a + b) == [a + Split(b)[0]] + Split(b)[1..]
    decreases |a|
  {
    if |a| > 0 {
      assert (a + b)[0] == a[0] && (a + b)[1..] == a[1..] + b;
      SplitCommaFreePrefix(a[1..], b);
      assert [a[0]] + (a[1..] + Split(b)[0]) == a + Split(b)[0];
    } else {
      assert a + b == b && a + Split(b)[0] == Split(b)[0];
      assert Split(b) == [Split(b)[0]] + Split(b)[1..];
    }
  }

  /** Splitting a join of comma-free pieces gives back the pieces. */
  lemma {:induction false} SplitJoin(parts: seq<string>)
    requires |parts| > 0
    requires forall i :: 0 <= i < |parts| ==> ',' !in parts[i]
    ensures Split(Join(parts)) == parts
    decreases |parts|
  {
    if |parts| == 1 {
      SplitCommaFreePrefix(parts[0], "");
      assert parts[0] + "" == parts[0];
    } else {
      var tail := parts[1..];
      SplitJoin(tail);
      assert parts == [parts[0]] + tail;
      JoinCons(parts[0], tail);
      SplitAroundComma(parts[0], Join(tail));
    }
  }

  /** A comma after a comma-free piece ends that piece. */
  lemma SplitAroundComma(x: string, b: string)
    requires ',' !in x
    ensures Split(x + "," + b) == [x] + Split(b)
  {
    var rest := "," + b;
    assert rest[1..] == b;
    SplitCommaFreePrefix(x, rest);
    assert x + "," + b == x + rest;
    assert x + "" == x;
  }

  /** Joining the parsed tags with `,` gives the `tags` string with all whitespace removed. */
  lemma TagsRoundTrip(tags: Option<string>)
    ensures Join(ParseTags(tags)) == StripWs(ValueOr(tags, ""))
  {
    match tags
    case None =>
    case Some(t) =>
      if t != "" {
        JoinSplit(StripWs(t));
      }
  }

  /** Parsing the `,`-join of comma-free, whitespace-free tags gives back those tags,
      unless the join is the empty string, which parses to no tags at all. */
  lemma TagsFromJoin(parts: seq<string>)
    requires |parts| > 0
    requires forall i, k :: 0 <= i < |parts| && 0 <= k < |parts[i]| ==> parts[i][k] != ',' && !IsWs(parts[i][k])
    requires Join(parts) != ""
    ensures ParseTags(Some(Join(parts))) == parts
  {
    var joined := Join(parts);
    JoinHasNoWs(parts);
    Sequences.FilterFixpoint(NotWs, joined);
    SplitJoin(parts);
  }

  /** A join of whitespace-free pieces contains no whitespace. */
  lemma {:induction false} JoinHasNoWs(parts: seq<string>)
    requires forall i, k :: 0 <= i < |parts| && 0 <= k < |parts[i]| ==> !IsWs(parts[i][k])
    ensures NoWs(Join(parts))
    decreases |parts|
  {
    if |parts| > 1 {
      JoinHasNoWs(parts[1..]);
      var j := Join(parts);
      assert j == parts[0] + ("," + Join(parts[1..]));
      forall k | 0 <= k < |j| ensures NotWs(j[k]) {
        if k < |parts[0]| {
          assert j[k] == parts[0][k];
        } else if k == |parts[0]| {
          assert j[k] == ',';
        } else {
          assert j[k] == Join(parts[1..])[k - |parts[0]| - 1];
        }
      }
    } else if |parts| == 1 {
      assert forall k :: 0 <= k < |parts[0]| ==> NotWs(parts[0][k]);
    }
  }

  /** A non-empty `tags` string made only of whitespace yields one empty tag,
      not the empty list: the emptiness test is made before whitespace is removed. */
  lemma WhitespaceOnlyGivesOneEmptyTag(t: string)
    requires t != "" && forall k :: 0 <= k < |t| ==> IsWs(t[k])
    ensures ParseTags(Some(t)) == [""]
  {
    Sequences.FilterNone(NotWs, t);
  }
}

=== FILE: username.dfy ===
/** The username field of the SUBJKT settings page. When the field loses focus its
    value is replaced by the same text with every character outside `a-z`, `0-9`,
    `-`, `.` and `_` removed. The strings made only of those characters are
    exactly those the regular expression `^[a-z0-9-._]*$` matches (`IsValid`). */
module Username {
  import Sequences

  /** A character a username may contain. Upper-case letters are not among them. */
  predicate IsAllowed(c: char) {
    ('a' <= c <= 'z') || ('0' <= c <= '9') || c == '-' || c == '.' || c == '_'
  }

  /** The whole name matches the regular expression `^[a-z0-9-._]*$`. */
  predicate IsValid(name: string) {
    Sequences.All(IsAllowed, name)
  }

  /** The value the field holds after losing focus. */
  function Sanitize(name: string): (r: string)
    ensures IsValid(r)
    ensures |r| <= |name|
  {
    Sequences.Filter(IsAllowed, name)
  }

  /** The blur handler as a left-to-right scan of the field's value, appending
      each allowed character and skipping the rest. */
  method SanitizeOnBlur(value: string) returns (r: string)
    ensures r == Sanitize(value)
  {
    r := "";
    var i := 0;
    while i < |value|
      invariant 0 <= i <= |value|
      invariant r == Sanitize(value[..i])
    {
      var c := value[i];
      assert value[..i + 1] == value[..i] + [c];
      Sequences.FilterSnoc(IsAllowed, value[..i], c);
      assert Sanitize(value[..i + 1]) == Sanitize(value[..i]) + (if IsAllowed(c) then [c] else []);
      if IsAllowed(c) {
        r := r + [c];
      }
      i := i + 1;
    }
    assert value[..i] == value;
  }

  /** Every occurrence of an allowed character survives the blur handler and no
      occurrence of any other character does. */
  lemma SanitizeCount(name: string, c: char)
    ensures Sequences.Count(Sanitize(name), c) == (if IsAllowed(c) then Sequences.Count(name, c) else 0)
  {
    Sequences.FilterCount(IsAllowed, name, c);
  }

  /** A name leaves the blur handler unchanged exactly when it already matches the pattern. */
  lemma SanitizeFixesExactlyValid(name: string)
    ensures Sanitize(name) == name <==> IsValid(name)
  {
    Sequences.FilterFixpoint(IsAllowed, name);
  }

  /** Blurring the field twice gives the same value as blurring it once. */
  lemma SanitizeIdempotent(name: string)
    ensures Sanitize(Sanitize(name)) == Sanitize(name)
  {
    Sequences.FilterIdempotent(IsAllowed, name);
  }

  /** The sanitised name is a subsequence of the typed text: characters are only removed, never reordered. */
  lemma SanitizeIsSubsequence(name: string)
    ensures Sequences.IsSubsequence(Sanitize(name), name)
  {
    Sequences.FilterIsSubsequence(IsAllowed, name);
  }

  /** Any subsequence of the typed text that matches the pattern and is as long
      as the sanitised name is the sanitised name: no allowed character is lost. */
  lemma SanitizeKeepsEveryAllowed(name: string, t: string)
    requires Sequences.IsSubsequence(t, name) && IsValid(t)
    requires |t| == |Sanitize(name)|
    ensures t == Sanitize(name)
  {
    Sequences.FilterUnique(IsAllowed, t, name);
  }

  /** Sanitising a concatenation sanitises each part independently. */
  lemma SanitizeAppend(a: string, b: string)
    ensures Sanitize(a + b) == Sanitize(a) + Sanitize(b)
  {
    Sequences.FilterAppend(IsAllowed, a, b);
  }

  /** An upper-case letter is dropped wherever it stands, not turned into its lower-case form. */
  lemma UppercaseDropped(before: string, c: char, after: string)
    requires 'A' <= c <= 'Z'
    ensures Sanitize(before + [c] + after) == Sanitize(before + after)
  {
    assert !IsAllowed(c);
    SanitizeAppend(before + [c], after);
    Sequences.FilterSnoc(IsAllowed, before, c);
    assert Sanitize(before + [c]) == Sanitize(before);
    SanitizeAppend(before, after);
  }
}
